=== FILE: README.md ===
# natssse gateway handlers in Dafny

natssse is an HTTP gateway in front of a NATS messaging backbone. Its handlers
let an HTTP client stream a subject as server-sent events, publish to a
subject, make a request-reply call, and get, put or delete key-value entries.
Each handler asks a pluggable authorization callback before it touches the
backbone. The streaming, publish and request handlers ask it first of all. The
key-value handler first checks that the `key` and `bucket` query parameters are
present, and answers 400 without asking when one is missing.

This project models the sequential decision each handler makes. A handler reads
its inputs and the callback's verdict, receives an outcome from the backbone,
and produces an HTTP reply. The model records three things: the reply's status,
what the handler wrote, and the ordered steps it took outside itself
(`Backend.Effect`). "Nothing else happens" is therefore a statement about that
step list.

- The authorization callback is a function value `(credential, subject) -> bool`.
- Every backbone result is an input value: a `Backend.Fault` error with its kind
  (key-not-found, no-responders, timeout, other), or a success value.
  `Publish`, `RequestMsg`, `JetStream`, `KeyValue`, `Get`, `Put` and `Delete` are
  covered this way. Reading the request body is an input of the same kind.
- `Http.Status` separates a status the handler chose (`Explicit`) from one it
  left to net/http (`Implicit`, which is sent as 200).
- `http.Error` is modelled as an explicit status plus an `ErrorText` payload.
  Response headers are modelled only for the streaming handler, which sets some
  itself. There `Http.ErrorHeaders` applies the header changes `http.Error`
  makes.
- `http.Header` canonicalizes every name it stores or looks up
  (`Http.CanonicalKey`, after `textproto.CanonicalMIMEHeaderKey`): `HeaderGet`,
  `HeaderAdd`, `HeaderSet` and `HeaderDel`. A NATS header map and a URL query
  are looked up by the exact name (`Http.Get`).
- Bytes written from a string (`w.Write(e.Body())`) are an `Encoded` payload
  holding the string. Its bytes are the string's UTF-8 encoding, `Text.Utf8`.

Modules follow the source files:

- `Subjects`: `replacer`.
- `Sse`: nats.go. This covers the streaming handler's start-up, the keepalive
  message and `writeResponse`.
- `RequestHandler`: request.go.
- `PublishHandler`: publish.go.
- `KvHandler`: kv.go.
- `Errors`: errors.go.

The supporting modules are:

- `Strconv`: `strconv.Atoi`, with `FormatInt` as its inverse.
- `Quoting`: the `%q` verb, with `Unquote` as its inverse.
- `Text`: `[]byte(string)`, i.e. UTF-8 encoding.
- `Http`: header maps with Go's name canonicalization, replies, and the status
  net/http delivers for a reply.
- `Backend`: messages, faults and the step list.

The model follows these details of the code:

- The streaming, publish and request handlers take the path value `subject` and
  map it through `replacer`. The key-value handler instead authorizes the raw
  `key` query parameter, unmapped: a key `a/b` is authorized as `a/b`.
- The service-error header is compared with the string `"200"` before it is
  parsed. So `"0200"` or `"+200"` gives `http.Error` with status 200 and the reply
  data as its text. Only an absent header or exactly `"200"` writes the data raw.
  `strconv.Atoi` accepts leading zeros, a `+` sign and `-0`
  (`Strconv.AtoiCanonical`).
- A missing bucket gives 404 only when the bucket lookup's error counts as
  key-not-found (kv.go:63). Whether the client library reports a missing bucket
  that way is outside this model. `KvBackend.bucket` is an input.
- `writeResponse` adds the message headers to the live response headers. It does
  not put them in the JSON frame. `http.Header.Add` canonicalizes each name, so
  message headers whose names differ only in case, such as `x-id` and `X-Id`,
  merge into one response header. Their values are then ordered by Go's map
  iteration order, which is unspecified (`Sse.CaseVariantsFollowVisitingOrder`).
  Without such a pair the result does not depend on that order
  (`Sse.OrderIrrelevant`).
- On a 401 or 500 the streaming handler has already set its three event-stream
  headers. `http.Error` then replaces Content-Type with
  `text/plain; charset=utf-8` and adds `X-Content-Type-Options: nosniff`.
  Cache-Control and Connection stay.
- If the body cannot be read, the request and publish handlers return silently.
  They write no status and call no backbone.
- Publish success writes nothing, so the client sees 200.

## Model

| member | source | states |
|---|---|---|
| Subjects.ToSubject | nats.go:37-41 | The subject has the path's length. Each `/` becomes `.` and every other character keeps its value and position, so no `/` remains |
| Subjects.ToSubjectIdempotent | nats.go:40 | Mapping an already-mapped subject changes nothing |
| Subjects.ToSubjectFixedPoints | nats.go:40 | Mapping leaves a path unchanged exactly when it contains no `/` |
| Subjects.ToSubjectSegments | nats.go:40 | `a/b` maps to the mapping of `a`, then `.`, then the mapping of `b` |
| Sse.HandleSse | nats.go:44-83 | When the callback allows and the writer can flush, the session is exactly: the three stream headers, no reply written, and the steps auth, ping loop, stream function, in that order. On a 401 or 500 the headers are exactly the `http.Error` changes applied over the stream headers. They read Content-Type `text/plain; charset=utf-8` and X-Content-Type-Options `nosniff`, and still hold the Cache-Control and Connection values. The only step is the authorization of the mapped subject. A denial gives 401 and an unflushable writer gives 500. The ping loop and the stream function start exactly when the callback allows and the writer can flush |
| Sse.Keepalive | nats.go:86-100 | After n ticks the keepalive has sent exactly n messages. Each one is the ping message: subject `natssse.system`, no headers, data `{"system": "ping"}` |
| Sse.WriteResponse | nats.go:112-128 | The frame carries the message's subject and data unchanged. A response header exists exactly when it existed before or some message header that canonicalizes to its name has a value. Each response header keeps its earlier values, followed by the values of every message header that canonicalizes to its name, header by header in the visiting order. A name whose lower-cased form is `content-length` contributes nothing |
| Sse.AddValues | nats.go:117-119 | Adding all values of one header appends them in order under the name's canonical key and changes no other header. With no values nothing changes, not even the key set |
| Sse.CopyHeader | nats.go:113-120 | One pass of the outer loop adds exactly the visited header's values under its canonical key, or nothing for content-length |
| Sse.OrderIrrelevant | nats.go:113 | When no two forwarded message headers share a canonical key, any two visiting orders of the map give the same response headers |
| Sse.CollectedSingle | nats.go:113-120 | In that case a response header collects exactly the values of the one message header that canonicalizes to it |
| Sse.CaseVariantsFollowVisitingOrder | nats.go:113-118 | Message headers `x-id: a` and `X-Id: b` both land under `X-Id`, as `a, b` in one visiting order and `b, a` in the other |
| Sse.StreamHeaders | nats.go:45-47 | After the three `Set` calls, Content-Type reads `text/event-stream`, Cache-Control `no-cache` and Connection `keep-alive`. The key set is the old one plus the three canonical keys, each of which holds exactly one value, and every other header is unchanged |
| Sse.ErrorKeepsStreamHeaders | nats.go:46-47 | The header changes of `http.Error` leave Cache-Control and Connection as they were |
| Http.Get | request.go:54 | `nats.Header.Get` and `url.Values.Get` give the first value stored under exactly that name, or "" when there is none |
| Http.HeaderGetIgnoresCase | kv.go:52 | The contract of `Http.HeaderGet`: `r.Header.Get("Authorization")` finds a header stored under its canonical name whatever letter case the lookup uses |
| Http.HeaderAdd | nats.go:118 | `Header.Add` appends one value under the canonical key, adds only that key, and leaves every other key's values alone |
| Http.HeaderSet | nats.go:45-47 | After `Header.Set`, `Get` of the same name gives the value, the key holds exactly one value, and every other key is unchanged |
| Http.HeaderDel | nats.go:55 | `Header.Del` removes exactly the canonical key and changes no remaining value |
| Http.CanonicalKeyShape | nats.go:118 | A canonical key of a token name has the same letters up to case, starts each `-`-separated word with a capital and has no other capitals |
| Http.CanonicalKey | nats.go:118 | Canonicalizing keeps the length, and keeps a name with a non-token character as it is |
| Http.CanonicalKeyIdempotent | nats.go:118 | Canonicalizing a canonical key changes nothing |
| Http.CanonicalKeyIgnoresCase | nats.go:118 | Token names that differ only in letter case have the same canonical key |
| Http.Lower | nats.go:114 | Lower-casing keeps the length, maps each ASCII capital to its small letter and keeps every other character |
| Http.Error | request.go:62 | `http.Error` chooses the given status and writes the given message as plain text |
| Http.ErrorHeaders | nats.go:55 | `http.Error` leaves Content-Type `text/plain; charset=utf-8` and X-Content-Type-Options `nosniff`, each with exactly one value. The key set is the old one without Content-Length plus those two keys, and no other header changes |
| Http.Delivered | request.go:62 | A status outside 100-999 delivers nothing, because `WriteHeader` panics. A 1xx other than 101 ends as 200. A 101 or a status from 200 to 999 is delivered as chosen |
| RequestHandler.Outgoing | request.go:38-42 | The request message carries the mapped subject, a copy of the request headers and the whole body |
| RequestHandler.OutcomeReply | request.go:44-53 | No-responders gives 404. Any other backbone error gives 500. A reply is translated by its service-error header |
| RequestHandler.ReplyFor | request.go:54-66 | An absent header, or one exactly `"200"`, writes the reply data raw with no explicit status. Otherwise an unparseable header gives 500, and a parseable one gives its integer as the status with the reply data as the error text |
| RequestHandler.HandleRequest | request.go:23-67 | A denial gives 401 after only the auth step. An unreadable body gives no status and no backbone call. Otherwise exactly one request is sent, with a 3-second timeout, and its outcome sets the reply. There is never more than one backbone call |
| RequestHandler.ServiceStatusPassesThrough | request.go:54-63 | When a service reports any 64-bit code other than 200 in decimal, the handler chooses exactly that status, with the service's data as the body |
| RequestHandler.ServiceStatusDelivered | request.go:54-63 | For such a code the client gets no response for a code outside 100-999, 200 for a 1xx other than 101, and the code itself otherwise |
| RequestHandler.PaddedOkIsAnError | request.go:56-62 | A service-error header `"0200"` or `"+200"` makes the handler call `http.Error` with status 200 and the reply data, instead of writing the data raw |
| Strconv.Atoi | request.go:57 | A parsed value lies in the 64-bit signed range. Accepted text is non-empty and ends in a digit. A leading non-digit must be a sign followed by more text |
| Strconv.AtoiFormatInt | request.go:57 | The decimal rendering of any 64-bit integer parses back to that integer |
| Strconv.AtoiRejectsNonDigits | request.go:57-60 | Text with a non-digit anywhere other than a leading sign does not parse |
| Strconv.AtoiCanonical | request.go:57-60 | Atoi gives n exactly when the text is an optional sign and at least one digit, n is a 64-bit integer, and the text without `+`, leading zeros and the sign of zero is the decimal rendering of n |
| Strconv.CanonicalIsFormat | request.go:57 | Dropping a numeral's `+`, its leading zeros and the sign of zero gives the decimal rendering of its value |
| Strconv.FormatIntInjective | request.go:57 | Different integers have different decimal renderings |
| Strconv.DigitsOfValue | request.go:57 | A digit string without leading zeros is the rendering of its own value |
| Strconv.StripZeros | request.go:57 | Removing leading zeros keeps at least one digit and the value, and leaves no leading zero |
| PublishHandler.HandlePublish | publish.go:23-43 | The callback is asked about the mapped subject first. A denial gives 401 and nothing else happens. An unreadable body gives no status and no publish. Otherwise the mapped subject and the whole body are published once: a failure gives 500 and success writes nothing |
| PublishHandler.PublishesOnlyWhenAllowed | publish.go:26-42 | The number of backbone calls is 1 when the callback allows and the body was read, and 0 otherwise |
| Errors.NewClientError | errors.go:34-39 | `Code()` is the given code, and `Error()` is the wrapped error's message |
| Errors.ClientError.Body | errors.go:21-23 | The body is the text `{"error": `, then the quoted details, then `}`. Parsing it gives back exactly the details |
| Errors.BodyInjective | errors.go:21-23 | Two client errors with equal bodies have equal details |
| Errors.As | errors.go:29-32 | `As` is true exactly when the target is a `*ClientError`. A `ClientError` value or any other target gives false |
| Quoting.Quote | errors.go:22 | A quoted literal starts and ends with `"` |
| Quoting.UnquoteQuote | errors.go:22 | Unquoting a quoted text gives the text back |
| Quoting.QuoteInjective | errors.go:22 | Different texts quote to different literals |
| Text.Utf8 | nats.go:95 | The encoding takes 1 to 4 bytes per character. An ASCII string, such as the ping payload, keeps one byte per character with the same value |
| KvHandler.StatusClientError | kv.go:54 | The error made from a status carries that code, and the standard status text as its message |
| KvHandler.Translate | kv.go:101-134 | Key-not-found becomes a 404 `ClientError` with the text "Not Found". Any other error passes through unchanged |
| KvHandler.GetKV | kv.go:101-111 | A read gives the stored value exactly. A failed read gives the translated error |
| KvHandler.CheckKV | kv.go:113-134 | A put or delete succeeds exactly when the store reports no error. Otherwise it gives the translated error |
| KvHandler.Dispatch | kv.go:75-98 | PUT, GET and DELETE each make exactly one call with the key (PUT also passes the body). A successful PUT writes 204 and nothing else. A successful GET writes exactly the stored value. A successful DELETE writes nothing. Any other method gives a 405 `ClientError` and makes no call. A non-client error comes from the call the method made |
| KvHandler.HandleKvInner | kv.go:45-99 | A missing key or bucket gives 400 before any step. Otherwise the callback is asked about the key first, and a denial gives 401 with no further step. A JetStream failure, a bucket failure or a body failure ends the handler at once, with exactly that error and the steps taken up to it. When every check passes, the steps are auth, JetStream, bucket lookup, body read, then the method's one call |
| KvHandler.RenderError | kv.go:32-41 | A `ClientError` is written with its own code and the bytes of its own body. Any other error gives 500 with the generic status text |
| KvHandler.HandleKv | kv.go:20-43 | The wrapper keeps the handler's steps and keeps a success reply as written. A returned `ClientError` is written with its own body. The status always equals a table written directly in the inputs: 400; 401; 500 for JetStream; 404 or 500 for the bucket; 500 for the body; then 204, 200, 404, 500 or 405 by method and store outcome |
| KvHandler.MethodNotAllowedOnlyLast | kv.go:94-95 | The status is 405 exactly when every earlier check passed and the method is none of PUT, GET and DELETE |
| KvHandler.BadRequestIgnoresAuth | kv.go:46-50 | With a missing key or bucket, the result is the same whatever the callback or the backbone would say. It takes no step and gives 400 |
| KvHandler.StoreOnlyAfterAuthorizedKey | kv.go:52-62 | Any backbone step comes after the first step, which asks the callback about the key (not the bucket), and only when the callback allowed it |

## Left out

- The streaming loop in subscribe.go is left out. It polls with bounded waits and
  cancellation, so it is a matter of concurrency. It also sends strings on a
  channel of messages, which does not match nats.go.
- The goroutines, channels, cancellation and 30-second sleep in `newSSEHandler`
  and `ping` are left out. `Sse.Keepalive` counts ticks instead of time. Starting
  the ping loop and the stream function are recorded as steps.
- `writeAndFlushResponse` is left out. No code shown calls it. Its flush and its
  500 on an encoding error depend on the JSON encoder, which is not modelled.
- JSON encoding of the `{subject, data}` frame, including base64 for the data, is
  left out. The model stops at the `Envelope` value.
- Logging of non-client KV errors (`log.Println`) is left out. It does not
  affect the reply.
- `defer r.Body.Close()` is left out.
- `Quoting.Quote` covers only part of `%q`. Its escape rules match
  `strconv.Quote` for ASCII. It leaves every non-ASCII character as it is, while
  Go escapes non-printable runes and invalid UTF-8 as `\u`, `\U` or `\x`.
- `Http.Lower` lower-cases ASCII letters only, not all of `strings.ToLower`. The
  non-ASCII characters Go lower-cases into ASCII letters (U+212A and U+0130)
  become `k` and `i`. Neither letter occurs in `content-length`, so the filter
  decides the same.
- `Http.ErrorHeaders` applies the header changes `http.Error` documents: it
  deletes Content-Length and sets Content-Type and X-Content-Type-Options. Any
  further header clean-up a particular Go release does there is not modelled.
  If a release also deleted Cache-Control, the streaming handler's 401 and 500
  replies would lose it, and `Sse.HandleSse` would no longer hold.
- `Http.CanonicalKey` follows `textproto.CanonicalMIMEHeaderKey` for names made
  of token characters and keeps every other name as it is. net/http's checks
  that reject invalid header names are not modelled.
- The newline `http.Error` appends to its text, and the order of header and
  body writes, are left out.
- `RequestHandler.ServiceStatusPassesThrough` states the status the handler
  chooses. What the client receives, including the `WriteHeader` panic for a
  code outside 100-999 such as `"0"` or `"-5"`, is stated separately by
  `RequestHandler.ServiceStatusDelivered`.
- examples/main.go is process wiring. Its authorization policy calls a library
  that is not part of this model.
- The backbone client is not modelled as a store. So "PUT then GET returns the
  last value" is not stated. The model does state that GET writes exactly what
  the store returns.

=== FILE: backend.dfy ===
/**
 * The collaborators every handler shares: the authorization callback, the
 * backbone message, the errors collaborators return, and the ordered record
 * of what a handler asked of them.
 */
module Backend {
  import opened Text
  import opened Http

  /** `AuthFunc`: decides whether a credential may use a subject. */
  type AuthFunc = (string, string) -> bool

  /** `nats.Msg`, reduced to the fields the handlers read or fill in. */
  datatype Msg = Msg(subject: string, header: Values, data: Bytes)

  /**
   * How a collaborator's error is classified: `KeyNotFound` is what
   * `errors.Is(err, nats.ErrKeyNotFound)` recognises, `NoResponders` is the
   * sentinel `nats.ErrNoResponders` itself.
   */
  datatype FaultKind = KeyNotFound | NoResponders | Timeout | OtherFault

  /** An error returned by the backbone client or by reading the request body. */
  datatype Fault = Fault(kind: FaultKind, message: string)

  /** One step a handler takes outside itself, in the order taken. */
  datatype Effect =
    | Authorize(credential: string, subject: string)
    | ReadBody
    | Publish(subject: string, data: Bytes)
    | RequestMsg(msg: Msg, timeoutSeconds: nat)
    | JetStream
    | OpenBucket(bucket: string)
    | KvGet(key: string)
    | KvPut(key: string, value: Bytes)
    | KvDelete(key: string)
    | StartPing
    | RunStream(subject: string)

  /** Steps that use the backbone connection (or start work that does). */
  predicate IsBackendCall(e: Effect) {
    !e.Authorize? && !e.ReadBody?
  }

  predicate NoBackendCall(effects: seq<Effect>) {
    forall i :: 0 <= i < |effects| ==> !IsBackendCall(effects[i])
  }

  /** The number of backbone steps in a trace. */
  function BackendCalls(effects: seq<Effect>): (n: nat)
    ensures n == 0 <==> NoBackendCall(effects)
    ensures n <= |effects|
  {
    if effects == [] then 0
    else (if IsBackendCall(effects[0]) then 1 else 0) + BackendCalls(effects[1..])
  }

  /** What a handler leaves behind: its reply and the steps it took. */
  datatype Handled = Handled(reply: Reply, effects: seq<Effect>)
}

=== FILE: errors.dfy ===
/** The gateway's error values (errors.go). */
module Errors {
  import opened Wrappers
  import opened Quoting
  import opened Backend

  /** The text every client-error body starts with. */
  const BodyPrefix: string := "{\"error\": "

  /** `ClientError`: an error the caller caused, carrying the status to reply with. */
  datatype ClientError = ClientError(Status: int, Details: string) {

    /** `Error()`. */
    function Error(): string {
      Details
    }

    /** `Code()`. */
    function Code(): int {
      Status
    }

    /**
     * `Body()`: text shaped like a JSON object whose one member "error" holds
     * the `%q`-quoted details. It is valid JSON only when the details hold no
     * control character that `%q` writes as `\x..`, `\a` or `\v`. The model
     * keeps it as text; the handler writes its UTF-8 bytes.
     */
    function Body(): (r: string)
      ensures |r| > |BodyPrefix| && r[..|BodyPrefix|] == BodyPrefix && r[|r| - 1] == '}'
      ensures ParseBody(r) == Some(Details)
    {
      var r := BodyPrefix + Quote(Details) + "}";
      assert r[|BodyPrefix|..|r| - 1] == Quote(Details);
      UnquoteQuote(Details);
      r
    }
  }

  /** Reads a client-error body back into its details. */
  function ParseBody(b: string): Option<string> {
    if |b| > |BodyPrefix| && b[..|BodyPrefix|] == BodyPrefix && b[|b| - 1] == '}'
    then Unquote(b[|BodyPrefix|..|b| - 1])
    else None
  }

  /** Distinct details give distinct bodies, so a client can always tell them apart. */
  lemma BodyInjective(c: ClientError, d: ClientError)
    requires c.Body() == d.Body()
    ensures c.Details == d.Details
  {
  }

  /** A Go `error` value as the handlers pass it around. */
  datatype Err =
    | Client(ce: ClientError)   // a ClientError value
    | Foreign(fault: Fault)     // returned by a collaborator
    | Plain(text: string)       // made by fmt.Errorf without wrapping

  /** `err.Error()`. */
  function Message(e: Err): string {
    match e
    case Client(ce) => ce.Error()
    case Foreign(f) => f.message
    case Plain(t) => t
  }

  /** `NewClientError(err, code)`. */
  function NewClientError(err: Err, code: int): (c: ClientError)
    ensures c.Code() == code
    ensures c.Error() == Message(err)
  {
    ClientError(code, Message(err))
  }

  /** The dynamic value handed to `As` as its target. */
  datatype Target =
    | ClientErrorPointer(pointee: Option<ClientError>)   // a *ClientError, possibly nil
    | ClientErrorValue(value: ClientError)
    | OtherTarget

  /** `As(target)`: whether the target's dynamic type is `*ClientError`; the receiver plays no part. */
  function As(c: ClientError, target: Target): (ok: bool)
    ensures ok <==> target.ClientErrorPointer?
  {
    target.ClientErrorPointer?
  }
}

=== FILE: http.dfy ===
/**
 * The slice of net/http (and of the backbone client's header type) the
 * handlers rely on: multi-valued header maps, request data, and the reply a
 * handler leaves behind.
 */
module Http {
  import opened Wrappers
  import opened Text

  /** `http.Header`, `nats.Header` and `url.Values`: names mapped to ordered values. */
  type Values = map<string, seq<string>>

  /** The values stored under a name; a missing name reads as Go's nil slice. */
  function ValuesOf(h: Values, name: string): seq<string> {
    if name in h then h[name] else []
  }

  /**
   * `url.Values.Get` and `nats.Header.Get`: the first value stored under
   * exactly this name, or "" when there is none.
   */
  function Get(h: Values, name: string): (v: string)
    ensures |ValuesOf(h, name)| > 0 ==> v == ValuesOf(h, name)[0]
    ensures |ValuesOf(h, name)| == 0 ==> v == ""
  {
    if name in h && |h[name]| > 0 then h[name][0] else ""
  }

  /** ASCII case mapping of one character; every other character is kept. */
  function LowerChar(c: char): char {
    if 'A' <= c <= 'Z' then (c as int + 32) as char else c
  }

  function UpperChar(c: char): char {
    if 'a' <= c <= 'z' then (c as int - 32) as char else c
  }

  /** Changing a character's case does not change its lower-case form. */
  lemma CaseOfChar(c: char)
    ensures LowerChar(UpperChar(c)) == LowerChar(c)
    ensures LowerChar(LowerChar(c)) == LowerChar(c)
    ensures UpperChar(UpperChar(c)) == UpperChar(c)
    ensures UpperChar(LowerChar(c)) == UpperChar(c)
    ensures (UpperChar(c) == '-' <==> c == '-') && (LowerChar(c) == '-' <==> c == '-')
    ensures !('a' <= UpperChar(c) <= 'z') && !('A' <= LowerChar(c) <= 'Z')
    ensures IsTokenChar(c) ==> IsTokenChar(UpperChar(c)) && IsTokenChar(LowerChar(c))
  {
  }

  /** Two characters with the same lower-case form differ at most in case. */
  lemma SameLetter(x: char, y: char)
    requires LowerChar(x) == LowerChar(y)
    ensures UpperChar(x) == UpperChar(y)
    ensures x == '-' <==> y == '-'
  {
  }

  /** `strings.ToLower`, restricted to ASCII letters. */
  function Lower(s: string): (r: string)
    ensures |r| == |s|
    ensures forall i :: 0 <= i < |s| ==> r[i] == LowerChar(s[i])
  {
    seq(|s|, i requires 0 <= i < |s| => LowerChar(s[i]))
  }

  /** The characters an HTTP header name (an RFC 7230 token) may contain. */
  predicate IsTokenChar(c: char) {
    || 'a' <= c <= 'z' || 'A' <= c <= 'Z' || '0' <= c <= '9'
    || c == '!' || c == '#' || c == '$' || c == '%' || c == '&' || c == '\'' || c == '*'
    || c == '+' || c == '-' || c == '.' || c == '^' || c == '_' || c == '`' || c == '|' || c == '~'
  }

  predicate IsToken(name: string) {
    forall i :: 0 <= i < |name| ==> IsTokenChar(name[i])
  }

  /**
   * `textproto.CanonicalMIMEHeaderKey`, which `http.Header` applies to every
   * name it stores or looks up: the first letter and every letter after a `-`
   * in upper case, all other letters in lower case. A name with any character
   * that is not a token character (a space, a non-ASCII character) is kept as
   * it is.
   */
  function CanonicalKey(name: string): (key: string)
    ensures |key| == |name|
    ensures !IsToken(name) ==> key == name
  {
    if IsToken(name) then
      seq(|name|, i requires 0 <= i < |name| =>
        if i == 0 || name[i - 1] == '-' then UpperChar(name[i]) else LowerChar(name[i]))
    else name
  }

  /**
   * A canonical key differs from its token name only in letter case: it
   * starts each `-`-separated word with a capital and has no other capitals.
   */
  lemma CanonicalKeyShape(name: string)
    requires IsToken(name)
    ensures IsToken(CanonicalKey(name)) && Lower(CanonicalKey(name)) == Lower(name)
    ensures var key := CanonicalKey(name); forall i :: 0 <= i < |key| ==>
      (i == 0 || key[i - 1] == '-' ==> !('a' <= key[i] <= 'z')) &&
      (i > 0 && key[i - 1] != '-' ==> !('A' <= key[i] <= 'Z'))
  {
    var key := CanonicalKey(name);
    forall i | 0 <= i < |name|
      ensures LowerChar(key[i]) == LowerChar(name[i]) && IsTokenChar(key[i])
      ensures i == 0 || key[i - 1] == '-' ==> !('a' <= key[i] <= 'z')
      ensures i > 0 && key[i - 1] != '-' ==> !('A' <= key[i] <= 'Z')
    {
      CanonicalChar(name, i);
    }
    assert Lower(key) == Lower(name);
  }

  /** One character of a canonical key, next to the one before it. */
  lemma CanonicalChar(name: string, i: int)
    requires IsToken(name) && 0 <= i < |name|
    ensures var key := CanonicalKey(name);
      && LowerChar(key[i]) == LowerChar(name[i]) && IsTokenChar(key[i])
      && (i == 0 || key[i - 1] == '-' ==> !('a' <= key[i] <= 'z'))
      && (i > 0 && key[i - 1] != '-' ==> !('A' <= key[i] <= 'Z'))
  {
    CaseOfChar(name[i]);
    if i > 0 {
      CaseOfChar(name[i - 1]);
    }
  }

  /** Canonicalizing twice changes nothing. */
  lemma CanonicalKeyIdempotent(name: string)
    ensures CanonicalKey(CanonicalKey(name)) == CanonicalKey(name)
  {
    if IsToken(name) {
      var key := CanonicalKey(name);
      CanonicalKeyShape(name);
      var again := CanonicalKey(key);
      forall i | 0 <= i < |key|
        ensures again[i] == key[i]
      {
        CaseOfChar(name[i]);
        if i > 0 {
          CaseOfChar(name[i - 1]);
        }
      }
    }
  }

  /** Header names that differ only in the case of their letters share a canonical key. */
  lemma CanonicalKeyIgnoresCase(a: string, b: string)
    requires IsToken(a) && IsToken(b) && Lower(a) == Lower(b)
    ensures CanonicalKey(a) == CanonicalKey(b)
  {
    var ka, kb := CanonicalKey(a), CanonicalKey(b);
    forall i | 0 <= i < |a|
      ensures ka[i] == kb[i]
    {
      assert LowerChar(a[i]) == LowerChar(b[i]);
      SameLetter(a[i], b[i]);
      if i > 0 {
        assert LowerChar(a[i - 1]) == LowerChar(b[i - 1]);
        SameLetter(a[i - 1], b[i - 1]);
      }
    }
  }

  /** `http.Header.Get`: looks the name up under its canonical key. */
  function HeaderGet(h: Values, name: string): string {
    Get(h, CanonicalKey(name))
  }

  /**
   * The contract of `HeaderGet`: `http.Header.Get` finds a header stored under
   * its canonical name whatever letter case the lookup uses.
   */
  lemma HeaderGetIgnoresCase(h: Values, asked: string, stored: string)
    requires IsToken(asked) && IsToken(stored) && Lower(asked) == Lower(stored)
    requires stored == CanonicalKey(stored)
    ensures HeaderGet(h, asked) == Get(h, stored)
  {
    CanonicalKeyIgnoresCase(asked, stored);
  }

  /** `http.Header.Add`: appends one value under the name's canonical key. */
  function HeaderAdd(h: Values, name: string, value: string): (r: Values)
    ensures r.Keys == h.Keys + {CanonicalKey(name)}
    ensures r[CanonicalKey(name)] == ValuesOf(h, CanonicalKey(name)) + [value]
    ensures forall n :: n in h && n != CanonicalKey(name) ==> r[n] == h[n]
  {
    h[CanonicalKey(name) := ValuesOf(h, CanonicalKey(name)) + [value]]
  }

  /** `http.Header.Set`: replaces whatever is stored under the name's canonical key by one value. */
  function HeaderSet(h: Values, name: string, value: string): (r: Values)
    ensures r.Keys == h.Keys + {CanonicalKey(name)}
    ensures HeaderGet(r, name) == value && |r[CanonicalKey(name)]| == 1
    ensures forall n :: n in h && n != CanonicalKey(name) ==> r[n] == h[n]
  {
    h[CanonicalKey(name) := [value]]
  }

  /** `http.Header.Del`: removes the name's canonical key. */
  function HeaderDel(h: Values, name: string): (r: Values)
    ensures r.Keys == h.Keys - {CanonicalKey(name)}
    ensures forall n :: n in r ==> r[n] == h[n]
  {
    h - {CanonicalKey(name)}
  }

  /** A request as the handlers see it. */
  datatype Request = Request(
    verb: string,          // r.Method
    pathSubject: string,   // r.PathValue("subject")
    query: Values,         // r.URL.Query()
    header: Values)        // r.Header

  /** The credential passed to the authorization callback: `r.Header.Get("Authorization")`. */
  function Credential(req: Request): string {
    HeaderGet(req.header, "Authorization")
  }

  /**
   * Whether the handler chose a status with WriteHeader (or http.Error), or
   * left it to net/http, which then sends 200.
   */
  datatype Status = Implicit | Explicit(code: int)

  /**
   * The Go string handed to http.Error: written as a string, or converted
   * byte for byte from a byte slice with `string(b)`.
   */
  datatype Message = Literal(chars: string) | Converted(data: Bytes)

  /**
   * What the handler wrote: nothing, raw bytes, the bytes of a string
   * (`w.Write([]byte(text))`, whose UTF-8 encoding is `Text.Utf8`), or the
   * plain-text message of http.Error.
   */
  datatype Payload = NoPayload | Raw(data: Bytes) | Encoded(text: string) | ErrorText(message: Message)

  datatype Reply = Reply(status: Status, payload: Payload)

  /** The status the handler chose: the one it wrote, or 200 when it wrote none. */
  function StatusCode(r: Reply): int {
    match r.status
    case Implicit => 200
    case Explicit(code) => code
  }

  const StatusOK := 200
  const StatusNoContent := 204
  const StatusBadRequest := 400
  const StatusUnauthorized := 401
  const StatusNotFound := 404
  const StatusMethodNotAllowed := 405
  const StatusInternalServerError := 500

  /** `http.StatusText` for the codes the handlers use; "" for any other code, as in Go. */
  function StatusText(code: int): string {
    if code == 200 then "OK"
    else if code == 204 then "No Content"
    else if code == 400 then "Bad Request"
    else if code == 401 then "Unauthorized"
    else if code == 404 then "Not Found"
    else if code == 405 then "Method Not Allowed"
    else if code == 500 then "Internal Server Error"
    else ""
  }

  /**
   * What net/http delivers for a handler's reply. A status outside 100-999
   * makes `WriteHeader` panic, which aborts the response (None). A 1xx status
   * other than 101 is sent as an interim response, and the final status is
   * then 200. Every other status is delivered as chosen.
   */
  function Delivered(r: Reply): (d: Option<int>)
    ensures d.Some? ==> 100 <= d.value <= 999
    ensures d.None? <==> StatusCode(r) < 100 || StatusCode(r) > 999
    ensures d.Some? && d.value != StatusCode(r) ==> d.value == 200 && 100 <= StatusCode(r) < 200
    ensures 100 <= StatusCode(r) < 200 && StatusCode(r) != 101 ==> d == Some(200)
    ensures StatusCode(r) == 101 || 200 <= StatusCode(r) <= 999 ==> d == Some(StatusCode(r))
  {
    var code := StatusCode(r);
    if code < 100 || code > 999 then None
    else if code < 200 && code != 101 then Some(200)
    else Some(code)
  }

  /** `http.Error(w, text, code)`. */
  function Error(text: Message, code: int): (r: Reply)
    ensures StatusCode(r) == code && r.payload.ErrorText? && r.payload.message == text
  {
    Reply(Explicit(code), ErrorText(text))
  }

  /** The canonical keys `http.Error` deletes or sets. */
  function ErrorHeaderKeys(): set<string> {
    {CanonicalKey("Content-Length"), CanonicalKey("Content-Type"), CanonicalKey("X-Content-Type-Options")}
  }

  /**
   * The header changes `http.Error` makes before writing: it drops
   * Content-Length and declares a plain-text, no-sniff body.
   */
  function ErrorHeaders(h: Values): (r: Values)
    ensures HeaderGet(r, "Content-Type") == "text/plain; charset=utf-8"
    ensures HeaderGet(r, "X-Content-Type-Options") == "nosniff"
    ensures CanonicalKey("Content-Length") !in r
    ensures forall n :: n in h && n !in ErrorHeaderKeys() ==> n in r && r[n] == h[n]
    ensures r.Keys ==
      (h.Keys - {CanonicalKey("Content-Length")}) + {CanonicalKey("Content-Type"), CanonicalKey("X-Content-Type-Options")}
    ensures |r[CanonicalKey("Content-Type")]| == 1 && |r[CanonicalKey("X-Content-Type-Options")]| == 1
  {
    var cleared := HeaderDel(h, "Content-Length");
    var typed := HeaderSet(cleared, "Content-Type", "text/plain; charset=utf-8");
    var r := HeaderSet(typed, "X-Content-Type-Options", "nosniff");
    // The three canonical keys differ in length, so no write undoes another.
    assert |CanonicalKey("Content-Length")| == 14;
    assert |CanonicalKey("Content-Type")| == 12;
    assert |CanonicalKey("X-Content-Type-Options")| == 22;
    r
  }

  /** `http.Error(w, http.StatusText(code), code)`, the handlers' usual failure reply. */
  function StatusError(code: int): Reply {
    Error(Literal(StatusText(code)), code)
  }

  /** A handler that returns without writing anything. */
  const Untouched: Reply := Reply(Implicit, NoPayload)
}

=== FILE: kv.dfy ===
/** The key-value handlers (kv.go): validation, authorization, bucket lookup and dispatch. */
module KvHandler {
  import opened Wrappers
  import opened Text
  import opened Http
  import opened Backend
  import opened Errors

  const MethodGet: string := "GET"
  const MethodPut: string := "PUT"
  const MethodDelete: string := "DELETE"

  /** What each backbone step of the key-value path would return (None: no error). */
  datatype KvBackend = KvBackend(
    jetStream: Option<Fault>,       // Conn.JetStream()
    bucket: Option<Fault>,          // js.KeyValue(bucket)
    body: Result<Bytes, Fault>,     // io.ReadAll(r.Body)
    get: Result<Bytes, Fault>,      // kv.Get(key), its entry's value
    put: Option<Fault>,             // kv.Put(key, body)
    delete: Option<Fault>)          // kv.Delete(key)

  /** The `ClientError` made from a status code and its standard text. */
  function StatusClientError(code: int): (c: ClientError)
    ensures c.Code() == code && c.Error() == StatusText(code)
  {
    NewClientError(Plain(StatusText(code)), code)
  }

  /** The error returned when key or bucket is missing. */
  const MissingParameters: ClientError :=
    NewClientError(Plain("key and bucket must be defined"), StatusBadRequest)

  /**
   * The translation `getKV`, `putKV` and `deleteKV` apply, and `newKVHandler`
   * applies to the bucket lookup: key-not-found becomes a 404 `ClientError`,
   * anything else is passed on unchanged.
   */
  function Translate(f: Fault): (e: Err)
    ensures f.kind == KeyNotFound <==> e.Client?
    ensures f.kind == KeyNotFound ==> e.ce.Code() == StatusNotFound && e.ce.Error() == StatusText(StatusNotFound)
    ensures f.kind != KeyNotFound ==> e == Foreign(f)
  {
    if f.kind == KeyNotFound then Client(StatusClientError(StatusNotFound)) else Foreign(f)
  }

  /** `getKV`: the stored value, or the translated error. */
  function GetKV(outcome: Result<Bytes, Fault>): (r: Result<Bytes, Err>)
    ensures outcome.Success? ==> r == Success(outcome.value)
    ensures outcome.Failure? ==> r == Failure(Translate(outcome.error))
  {
    match outcome
    case Success(value) => Success(value)
    case Failure(f) => Failure(Translate(f))
  }

  /** `putKV` and `deleteKV`: nothing, or the translated error. */
  function CheckKV(failure: Option<Fault>): (r: Option<Err>)
    ensures failure.None? <==> r.None?
    ensures failure.Some? ==> r == Some(Translate(failure.value))
  {
    match failure
    case None => None
    case Some(f) => Some(Translate(f))
  }

  /** What `newKVHandler` leaves behind: what it wrote, or the error it returned, and its steps. */
  datatype Step = Step(result: Result<Reply, Err>, effects: seq<Effect>)

  /** The method switch of `newKVHandler`, once every check has passed. */
  function Dispatch(verb: string, key: string, body: Bytes, be: KvBackend): (s: Step)
    ensures verb == MethodPut ==> s.effects == [KvPut(key, body)]
    ensures verb == MethodGet ==> s.effects == [KvGet(key)]
    ensures verb == MethodDelete ==> s.effects == [KvDelete(key)]
    ensures verb != MethodPut && verb != MethodGet && verb != MethodDelete ==>
      s == Step(Failure(Client(StatusClientError(StatusMethodNotAllowed))), [])
    ensures verb == MethodPut && be.put.None? ==> s.result == Success(Reply(Explicit(StatusNoContent), NoPayload))
    ensures verb == MethodGet && be.get.Success? ==> s.result == Success(Reply(Implicit, Raw(be.get.value)))
    ensures verb == MethodDelete && be.delete.None? ==> s.result == Success(Untouched)
    ensures s.result.Failure? && s.result.error.Foreign? ==>
      (verb == MethodPut && be.put == Some(s.result.error.fault))
      || (verb == MethodGet && be.get == Failure(s.result.error.fault))
      || (verb == MethodDelete && be.delete == Some(s.result.error.fault))
  {
    if verb == MethodPut then
      match CheckKV(be.put)
      case Some(e) => Step(Failure(e), [KvPut(key, body)])
      case None => Step(Success(Reply(Explicit(StatusNoContent), NoPayload)), [KvPut(key, body)])
    else if verb == MethodGet then
      match GetKV(be.get)
      case Failure(e) => Step(Failure(e), [KvGet(key)])
      case Success(data) => Step(Success(Reply(Implicit, Raw(data))), [KvGet(key)])
    else if verb == MethodDelete then
      match CheckKV(be.delete)
      case Some(e) => Step(Failure(e), [KvDelete(key)])
      case None => Step(Success(Untouched), [KvDelete(key)])
    else
      Step(Failure(Client(StatusClientError(StatusMethodNotAllowed))), [])
  }

  /** Key and bucket as read from the query string. */
  function KeyOf(req: Request): string {
    Get(req.query, "key")
  }

  function BucketOf(req: Request): string {
    Get(req.query, "bucket")
  }

  /** Whether every check before the method switch passes. */
  predicate ChecksPass(req: Request, auth: AuthFunc, be: KvBackend) {
    && KeyOf(req) != "" && BucketOf(req) != ""
    && auth(Credential(req), KeyOf(req))
    && be.jetStream.None? && be.bucket.None? && be.body.Success?
  }

  /**
   * `newKVHandler`: 400 for a missing key or bucket, 401 when the key is not
   * authorized, then the JetStream context, the bucket and the body, then the
   * method switch.
   */
  function HandleKvInner(req: Request, auth: AuthFunc, be: KvBackend): (s: Step)
    ensures KeyOf(req) == "" || BucketOf(req) == "" ==> s == Step(Failure(Client(MissingParameters)), [])
    ensures KeyOf(req) != "" && BucketOf(req) != "" ==>
      |s.effects| >= 1 && s.effects[0] == Authorize(Credential(req), KeyOf(req))
    ensures KeyOf(req) != "" && BucketOf(req) != "" && !auth(Credential(req), KeyOf(req)) ==>
      s == Step(Failure(Client(StatusClientError(StatusUnauthorized))), [Authorize(Credential(req), KeyOf(req))])
    ensures ChecksPass(req, auth, be) ==>
      s.effects == [Authorize(Credential(req), KeyOf(req)), JetStream, OpenBucket(BucketOf(req)), ReadBody]
                   + Dispatch(req.verb, KeyOf(req), be.body.value, be).effects
      && s.result == Dispatch(req.verb, KeyOf(req), be.body.value, be).result
    ensures !ChecksPass(req, auth, be) ==> s.result.Failure? && |s.effects| <= 4
    ensures var asked := Authorize(Credential(req), KeyOf(req));
      KeyOf(req) != "" && BucketOf(req) != "" && auth(Credential(req), KeyOf(req)) ==>
      && (be.jetStream.Some? ==> s == Step(Failure(Foreign(be.jetStream.value)), [asked, JetStream]))
      && (be.jetStream.None? && be.bucket.Some? ==>
            s == Step(Failure(Translate(be.bucket.value)), [asked, JetStream, OpenBucket(BucketOf(req))]))
      && (be.jetStream.None? && be.bucket.None? && be.body.Failure? ==>
            s == Step(Failure(Foreign(be.body.error)),
                      [asked, JetStream, OpenBucket(BucketOf(req)), ReadBody]))
  {
    var key := KeyOf(req);
    var bucket := BucketOf(req);
    if key == "" || bucket == "" then
      Step(Failure(Client(MissingParameters)), [])
    else
      var asked := [Authorize(Credential(req), key)];
      if !auth(Credential(req), key) then
        Step(Failure(Client(StatusClientError(StatusUnauthorized))), asked)
      else if be.jetStream.Some? then
        Step(Failure(Foreign(be.jetStream.value)), asked + [JetStream])
      else if be.bucket.Some? then
        Step(Failure(Translate(be.bucket.value)), asked + [JetStream, OpenBucket(bucket)])
      else
        match be.body
        case Failure(f) => Step(Failure(Foreign(f)), asked + [JetStream, OpenBucket(bucket), ReadBody])
        case Success(data) =>
          var d := Dispatch(req.verb, key, data, be);
          Step(d.result, asked + [JetStream, OpenBucket(bucket), ReadBody] + d.effects)
  }

  /**
   * The error branch of the `NewKVHandler` wrapper: a `ClientError` is written
   * with its own code and body, anything else becomes a generic 500.
   */
  function RenderError(e: Err): (r: Reply)
    ensures e.Client? ==> StatusCode(r) == e.ce.Code() && r.status.Explicit?
    ensures e.Client? ==> r.payload == Encoded(e.ce.Body())
    ensures !e.Client? ==> r == StatusError(StatusInternalServerError)
  {
    match e
    case Client(c) => Reply(Explicit(c.Code()), Encoded(c.Body()))
    case _ => StatusError(StatusInternalServerError)
  }

  /** Whether a backbone error is a key-not-found. */
  predicate IsNotFound(f: Option<Fault>) {
    f.Some? && f.value.kind == KeyNotFound
  }

  /**
   * The status table of the key-value endpoint, written directly in terms of
   * the inputs, independent of how the handler chains its errors.
   */
  function KvStatusTable(req: Request, auth: AuthFunc, be: KvBackend): int {
    if KeyOf(req) == "" || BucketOf(req) == "" then 400
    else if !auth(Credential(req), KeyOf(req)) then 401
    else if be.jetStream.Some? then 500
    else if be.bucket.Some? then (if IsNotFound(be.bucket) then 404 else 500)
    else if be.body.Failure? then 500
    else if req.verb == MethodPut then
      (if be.put.None? then 204 else if IsNotFound(be.put) then 404 else 500)
    else if req.verb == MethodGet then
      (if be.get.Success? then 200 else if be.get.error.kind == KeyNotFound then 404 else 500)
    else if req.verb == MethodDelete then
      (if be.delete.None? then 200 else if IsNotFound(be.delete) then 404 else 500)
    else 405
  }

  /**
   * `NewKVHandler`: runs `newKVHandler` and renders the error it returns, if
   * any. The status it answers always agrees with `KvStatusTable`.
   */
  function HandleKv(req: Request, auth: AuthFunc, be: KvBackend): (h: Handled)
    ensures h.effects == HandleKvInner(req, auth, be).effects
    ensures StatusCode(h.reply) == KvStatusTable(req, auth, be)
    ensures HandleKvInner(req, auth, be).result.Success? ==>
      h.reply == HandleKvInner(req, auth, be).result.value
    ensures HandleKvInner(req, auth, be).result.Failure? && HandleKvInner(req, auth, be).result.error.Client? ==>
      h.reply.payload == Encoded(HandleKvInner(req, auth, be).result.error.ce.Body())
  {
    var s := HandleKvInner(req, auth, be);
    match s.result
    case Success(reply) => Handled(reply, s.effects)
    case Failure(e) => Handled(RenderError(e), s.effects)
  }

  /** 405 is answered exactly when every other check passed and the method is not one of the three. */
  lemma MethodNotAllowedOnlyLast(req: Request, auth: AuthFunc, be: KvBackend)
    ensures StatusCode(HandleKv(req, auth, be).reply) == StatusMethodNotAllowed <==>
      ChecksPass(req, auth, be) && req.verb != MethodPut && req.verb != MethodGet && req.verb != MethodDelete
  {
  }

  /** A missing key or bucket is answered before the callback is asked: the verdict cannot matter. */
  lemma BadRequestIgnoresAuth(req: Request, auth1: AuthFunc, auth2: AuthFunc, be1: KvBackend, be2: KvBackend)
    requires KeyOf(req) == "" || BucketOf(req) == ""
    ensures HandleKv(req, auth1, be1) == HandleKv(req, auth2, be2)
    ensures HandleKv(req, auth1, be1).effects == []
    ensures StatusCode(HandleKv(req, auth1, be1).reply) == StatusBadRequest
  {
  }

  /** The store is touched only after the callback allowed the key, never the bucket name. */
  lemma StoreOnlyAfterAuthorizedKey(req: Request, auth: AuthFunc, be: KvBackend)
    ensures var effects := HandleKv(req, auth, be).effects;
      forall i :: 0 <= i < |effects| && IsBackendCall(effects[i]) ==>
        0 < i && effects[0] == Authorize(Credential(req), KeyOf(req)) && auth(Credential(req), KeyOf(req))
  {
  }
}

=== FILE: publish.dfy ===
/** `newPubHandler` (publish.go): fire-and-forget publishing of the request body. */
module PublishHandler {
  import opened Wrappers
  import opened Text
  import opened Http
  import opened Backend
  import opened Subjects

  /**
   * `newPubHandler`: authorize the mapped subject, read the body, publish it
   * once. `body` is what reading the request body gave, `failure` the error
   * `Publish` would return (None when it succeeds).
   */
  function HandlePublish(req: Request, auth: AuthFunc, body: Result<Bytes, Fault>,
                         failure: Option<Fault>): (h: Handled)
    ensures var subject := ToSubject(req.pathSubject);
      && |h.effects| >= 1 && h.effects[0] == Authorize(Credential(req), subject)
      && (!auth(Credential(req), subject) ==>
            h.reply == StatusError(StatusUnauthorized) && |h.effects| == 1)
      && (auth(Credential(req), subject) && body.Failure? ==>
            h == Handled(Untouched, [Authorize(Credential(req), subject), ReadBody]))
      && (auth(Credential(req), subject) && body.Success? ==>
            h.effects == [Authorize(Credential(req), subject), ReadBody, Publish(subject, body.value)])
      && (auth(Credential(req), subject) && body.Success? && failure.Some? ==>
            h.reply == StatusError(StatusInternalServerError))
      && (auth(Credential(req), subject) && body.Success? && failure.None? ==> h.reply == Untouched)
  {
    var subject := ToSubject(req.pathSubject);
    var asked := [Authorize(Credential(req), subject)];
    if !auth(Credential(req), subject) then
      Handled(StatusError(StatusUnauthorized), asked)
    else
      match body
      case Failure(_) => Handled(Untouched, asked + [ReadBody])
      case Success(data) =>
        var effects := asked + [ReadBody, Publish(subject, data)];
        if failure.Some? then Handled(StatusError(StatusInternalServerError), effects)
        else Handled(Untouched, effects)
  }

  /** Something is published exactly when the caller is authorized and the body was read. */
  lemma PublishesOnlyWhenAllowed(req: Request, auth: AuthFunc, body: Result<Bytes, Fault>,
                                 failure: Option<Fault>)
    ensures var h := HandlePublish(req, auth, body, failure);
      BackendCalls(h.effects) == (if auth(Credential(req), ToSubject(req.pathSubject)) && body.Success? then 1 else 0)
  {
    var h := HandlePublish(req, auth, body, failure);
    if auth(Credential(req), ToSubject(req.pathSubject)) && body.Success? {
      assert BackendCalls(h.effects[2..]) == 1;
      assert BackendCalls(h.effects[1..]) == 1;
    } else if auth(Credential(req), ToSubject(req.pathSubject)) {
      assert BackendCalls(h.effects[1..]) == 0;
    }
  }
}

=== FILE: quoting.dfy ===
/**
 * Go's `%q` verb on a string (`strconv.Quote`): the text in double quotes,
 * with quotes, backslashes and ASCII control characters escaped.
 * `Unquote` reads such a literal back.
 */
module Quoting {
  import opened Wrappers

  const HexDigits: string := "0123456789abcdef"

  predicate IsHexDigit(c: char) {
    '0' <= c <= '9' || 'a' <= c <= 'f' || 'A' <= c <= 'F'
  }

  function HexValue(c: char): (v: nat)
    requires IsHexDigit(c)
    ensures v < 16
  {
    if '0' <= c <= '9' then c as int - '0' as int
    else if 'a' <= c <= 'f' then c as int - 'a' as int + 10
    else c as int - 'A' as int + 10
  }

  /** The one-letter escapes `\a \b \f \n \r \t \v`, as a map from character to letter. */
  function LetterEscape(c: char): Option<char> {
    if c == 7 as char then Some('a')
    else if c == 8 as char then Some('b')
    else if c == 12 as char then Some('f')
    else if c == '\n' then Some('n')
    else if c == '\r' then Some('r')
    else if c == '\t' then Some('t')
    else if c == 11 as char then Some('v')
    else None
  }

  /** The inverse of LetterEscape, also accepting the escaped quote and backslash. */
  function LetterUnescape(e: char): Option<char> {
    if e == 'a' then Some(7 as char)
    else if e == 'b' then Some(8 as char)
    else if e == 'f' then Some(12 as char)
    else if e == 'n' then Some('\n')
    else if e == 'r' then Some('\r')
    else if e == 't' then Some('\t')
    else if e == 'v' then Some(11 as char)
    else if e == '"' || e == '\\' then Some(e)
    else None
  }

  /** The escape of one character inside a `%q` literal. */
  function EscapeRune(c: char): (r: string)
    ensures |r| >= 1
    ensures r[0] == '\\' || (r == [c] && c != '"')
  {
    if c == '"' || c == '\\' then ['\\', c]
    else if 0x20 <= c as int < 0x7F || c as int >= 0x80 then [c]
    else if LetterEscape(c).Some? then ['\\', LetterEscape(c).value]
    else ['\\', 'x', HexDigits[c as int / 16], HexDigits[c as int % 16]]
  }

  function Escape(s: string): string {
    if s == [] then [] else EscapeRune(s[0]) + Escape(s[1..])
  }

  /** `fmt.Sprintf("%q", s)`. */
  function Quote(s: string): (q: string)
    ensures |q| >= 2 && q[0] == '"' && q[|q| - 1] == '"'
  {
    "\"" + Escape(s) + "\""
  }

  function Prepend(c: char, rest: Option<string>): Option<string> {
    match rest
    case None => None
    case Some(t) => Some([c] + t)
  }

  /** Decodes the inside of a quoted literal; an unescaped quote or a bad escape fails. */
  function Unescape(s: string): Option<string>
    decreases |s|
  {
    if s == [] then Some([])
    else if s[0] == '"' then None
    else if s[0] != '\\' then Prepend(s[0], Unescape(s[1..]))
    else if |s| < 2 then None
    else if s[1] == 'x' then
      if |s| < 4 || !IsHexDigit(s[2]) || !IsHexDigit(s[3]) then None
      else Prepend((HexValue(s[2]) * 16 + HexValue(s[3])) as char, Unescape(s[4..]))
    else
      match LetterUnescape(s[1])
      case None => None
      case Some(c) => Prepend(c, Unescape(s[2..]))
  }

  /** Reads a double-quoted literal back into the text it quotes. */
  function Unquote(q: string): Option<string> {
    if |q| >= 2 && q[0] == '"' && q[|q| - 1] == '"' then Unescape(q[1..|q| - 1]) else None
  }

  /** Decoding one escaped character consumes exactly its escape. */
  lemma UnescapeRune(c: char, rest: string)
    ensures Unescape(EscapeRune(c) + rest) == Prepend(c, Unescape(rest))
  {
    var s := EscapeRune(c) + rest;
    if c == '"' || c == '\\' {
      assert s[2..] == rest;
    } else if 0x20 <= c as int < 0x7F || c as int >= 0x80 {
      assert s[1..] == rest;
    } else if LetterEscape(c).Some? {
      assert s[2..] == rest;
    } else {
      HexDigitValue(c as int / 16);
      HexDigitValue(c as int % 16);
      assert s[4..] == rest;
    }
  }

  /** Each hexadecimal digit `Quote` writes reads back as its value. */
  lemma HexDigitValue(d: nat)
    requires d < 16
    ensures IsHexDigit(HexDigits[d]) && HexValue(HexDigits[d]) == d
  {
  }

  lemma {:induction false} UnescapeEscape(s: string)
    ensures Unescape(Escape(s)) == Some(s)
  {
    if s != [] {
      assert Escape(s) == EscapeRune(s[0]) + Escape(s[1..]);
      UnescapeRune(s[0], Escape(s[1..]));
      UnescapeEscape(s[1..]);
      assert [s[0]] + s[1..] == s;
    }
  }

  /** Quoting loses nothing: the literal reads back as the original text. */
  lemma UnquoteQuote(s: string)
    ensures Unquote(Quote(s)) == Some(s)
  {
    var q := Quote(s);
    assert q[1..|q| - 1] == Escape(s);
    UnescapeEscape(s);
  }

  /** So two different texts never quote to the same literal. */
  lemma QuoteInjective(s: string, t: string)
    requires Quote(s) == Quote(t)
    ensures s == t
  {
    UnquoteQuote(s);
    UnquoteQuote(t);
  }
}

=== FILE: request.dfy ===
/** `newReqHandler` (request.go): one request-reply exchange through the backbone. */
module RequestHandler {
  import opened Wrappers
  import opened Text
  import opened Http
  import opened Backend
  import opened Subjects
  import opened Strconv

  /** The reply header a service uses to report an application-level status. */
  const ServiceErrorHeader: string := "Nats-Service-Error-Code"

  /** How long the handler waits for the reply. */
  const TimeoutSeconds: nat := 3

  /** The message sent for a request: mapped subject, a copy of the request headers, the whole body. */
  function Outgoing(req: Request, body: Bytes): (m: Msg)
    ensures m.subject == ToSubject(req.pathSubject)
    ensures m.header == req.header && m.data == body
  {
    Msg(ToSubject(req.pathSubject), req.header, body)
  }

  /** How the service-error header of a reply selects the HTTP reply. */
  function ReplyFor(reply: Msg): (r: Reply)
    ensures var status := Get(reply.header, ServiceErrorHeader);
      && (status == "" || status == "200" ==> r == Reply(Implicit, Raw(reply.data)))
      && (status != "" && status != "200" && Atoi(status).None? ==>
            r == StatusError(StatusInternalServerError))
      && (status != "" && status != "200" && Atoi(status).Some? ==>
            StatusCode(r) == Atoi(status).value && r.payload == ErrorText(Converted(reply.data)))
  {
    var status := Get(reply.header, ServiceErrorHeader);
    if status != "" && status != "200" then
      match Atoi(status)
      case None => StatusError(StatusInternalServerError)
      case Some(code) => Error(Converted(reply.data), code)
    else
      Reply(Implicit, Raw(reply.data))
  }

  /** How the outcome of the backbone request selects the HTTP reply. */
  function OutcomeReply(outcome: Result<Msg, Fault>): (r: Reply)
    ensures outcome.Failure? && outcome.error.kind == NoResponders ==> r == StatusError(StatusNotFound)
    ensures outcome.Failure? && outcome.error.kind != NoResponders ==>
      r == StatusError(StatusInternalServerError)
    ensures outcome.Success? ==> r == ReplyFor(outcome.value)
  {
    match outcome
    case Failure(f) =>
      if f.kind == NoResponders then StatusError(StatusNotFound)
      else StatusError(StatusInternalServerError)
    case Success(reply) => ReplyFor(reply)
  }

  /**
   * `newReqHandler`: authorize the mapped subject, read the body, send one
   * request, translate its outcome. `body` is what reading the request body
   * gave, `outcome` what the backbone would answer.
   */
  function HandleRequest(req: Request, auth: AuthFunc, body: Result<Bytes, Fault>,
                         outcome: Result<Msg, Fault>): (h: Handled)
    ensures var asked := Authorize(Credential(req), ToSubject(req.pathSubject));
      && (!auth(Credential(req), ToSubject(req.pathSubject)) ==>
            h == Handled(StatusError(StatusUnauthorized), [asked]))
      && (auth(Credential(req), ToSubject(req.pathSubject)) && body.Failure? ==>
            h == Handled(Untouched, [asked, ReadBody]))
      && (auth(Credential(req), ToSubject(req.pathSubject)) && body.Success? ==>
            h.effects == [asked, ReadBody, RequestMsg(Outgoing(req, body.value), TimeoutSeconds)]
            && h.reply == OutcomeReply(outcome))
    ensures BackendCalls(h.effects) <= 1
  {
    var subject := ToSubject(req.pathSubject);
    var asked := [Authorize(Credential(req), subject)];
    if !auth(Credential(req), subject) then
      Handled(StatusError(StatusUnauthorized), asked)
    else
      match body
      case Failure(_) => Handled(Untouched, asked + [ReadBody])
      case Success(data) =>
        var effects := asked + [ReadBody, RequestMsg(Outgoing(req, data), TimeoutSeconds)];
        assert BackendCalls(effects[2..]) == 1;
        Handled(OutcomeReply(outcome), effects)
  }

  /**
   * A service that reports any status other than 200 as its decimal rendering
   * makes the handler choose exactly that status, with its reply data as the
   * body. What net/http then delivers is `ServiceStatusDelivered`.
   */
  lemma ServiceStatusPassesThrough(reply: Msg, code: int)
    requires MinInt64 <= code <= MaxInt64 && code != 200
    requires Get(reply.header, ServiceErrorHeader) == FormatInt(code)
    ensures StatusCode(ReplyFor(reply)) == code
    ensures ReplyFor(reply).payload == ErrorText(Converted(reply.data))
  {
    AtoiFormatInt(code);
    assert FormatInt(code) != "200" by {
      AtoiFormatInt(200);
      assert Atoi("200") == Some(200) by {
        assert FormatInt(200) == "200" by {
          assert Digits(200) == Digits(20) + ['0'];
          assert Digits(20) == Digits(2) + ['0'];
        }
      }
    }
  }

  /**
   * What reaches the client for a service status: a status outside 100-999
   * aborts the response, a 1xx other than 101 ends as 200, and every other
   * status arrives as the service reported it.
   */
  lemma ServiceStatusDelivered(reply: Msg, code: int)
    requires MinInt64 <= code <= MaxInt64 && code != 200
    requires Get(reply.header, ServiceErrorHeader) == FormatInt(code)
    ensures code < 100 || code > 999 ==> Delivered(ReplyFor(reply)) == None
    ensures 100 <= code < 200 && code != 101 ==> Delivered(ReplyFor(reply)) == Some(200)
    ensures code == 101 || 200 < code <= 999 ==> Delivered(ReplyFor(reply)) == Some(code)
  {
    ServiceStatusPassesThrough(reply, code);
  }

  /**
   * The header is compared with "200" as text before it is parsed, so a
   * padded or signed 200 makes the handler answer through `http.Error`, with
   * the reply data as plain text, instead of passing the reply through.
   */
  lemma PaddedOkIsAnError(reply: Msg)
    requires Get(reply.header, ServiceErrorHeader) in {"0200", "+200"}
    ensures ReplyFor(reply) == Error(Converted(reply.data), StatusOK)
  {
    AtoiPaddedOk();
  }
}

=== FILE: sse.dfy ===
/**
 * The event-stream side of nats.go: the start-up decision of the streaming
 * handler, the keepalive message, and how one backbone message becomes
 * response headers plus a `{subject, data}` frame.
 */
module Sse {
  import opened Text
  import opened Http
  import opened Backend
  import opened Subjects

  /** The subject of every message the gateway makes up itself. */
  const SystemSubject: string := "natssse.system"

  /** The payload of a keepalive message. */
  const PingText: string := "{\"system\": \"ping\"}"

  /** The message `ping` sends on every tick. */
  const PingMessage: Msg := Msg(SystemSubject, map[], Utf8(PingText))

  /**
   * The messages the keepalive loop has sent after a number of ticks: one per
   * tick, each the fixed ping message. It stands in for `ping`, whose
   * 30-second sleep and cancellation are not modelled; its contract follows
   * from the definition by a routine induction, and what it records is that
   * nothing but `PingMessage` is ever sent.
   */
  function Keepalive(ticks: nat): (sent: seq<Msg>)
    ensures |sent| == ticks
    ensures forall i :: 0 <= i < ticks ==> sent[i] == PingMessage
  {
    if ticks == 0 then [] else Keepalive(ticks - 1) + [PingMessage]
  }

  /** Header names that are never forwarded, in any letter case. */
  predicate IsContentLength(name: string) {
    Lower(name) == "content-length"
  }

  /**
   * The values the message header `name` adds under the response header
   * `key`: all of them when `name` is forwarded and canonicalizes to `key`,
   * none otherwise.
   */
  function Contribution(h: Values, name: string, key: string): seq<string> {
    if name in h && !IsContentLength(name) && CanonicalKey(name) == key then h[name] else []
  }

  /** The values added under `key` after visiting the names in `order`, in visiting order. */
  function Collected(h: Values, order: seq<string>, key: string): seq<string> {
    if order == [] then []
    else Collected(h, order[..|order| - 1], key) + Contribution(h, order[|order| - 1], key)
  }

  /** `Response`: the JSON object written for each message. */
  datatype Envelope = Envelope(subject: string, data: Bytes)

  /** `order` lists every header name exactly once: one run of Go's `range` over the map. */
  predicate Enumerates(order: seq<string>, h: Values) {
    && (forall i :: 0 <= i < |order| ==> order[i] in h)
    && (forall name :: name in h ==> name in order)
    && (forall i, j :: 0 <= i < j < |order| ==> order[i] != order[j])
  }

  /**
   * `writeResponse`: adds every value of every message header except
   * content-length to the response headers through `http.Header.Add`,
   * visiting the names in `order`, and builds the frame for the message.
   * Each response header ends up holding what it held before followed by
   * the values of every message header that canonicalizes to it, in
   * visiting order. The JSON encoding is left out.
   */
  method WriteResponse(dst: Values, msg: Msg, order: seq<string>) returns (out: Values, frame: Envelope)
    requires Enumerates(order, msg.header)
    ensures frame.subject == msg.subject && frame.data == msg.data
    ensures forall key :: key in out <==> key in dst || Collected(msg.header, order, key) != []
    ensures forall key :: key in out ==>
      out[key] == ValuesOf(dst, key) + Collected(msg.header, order, key)
  {
    var h := msg.header;
    out := dst;
    var i := 0;
    while i < |order|
      invariant 0 <= i <= |order|
      invariant CopiedSoFar(dst, h, order[..i], out)
    {
      var name := order[i];
      var before := out;
      out := CopyHeader(out, h, name);
      CopyStep(dst, h, order[..i], name, before, out);
      assert order[..i + 1] == order[..i] + [name];
      i := i + 1;
    }
    assert order[..i] == order;
    frame := Envelope(msg.subject, msg.data);
  }

  /** The loop invariant of `writeResponse`: the headers named in `seen` have been copied. */
  ghost predicate CopiedSoFar(dst: Values, h: Values, seen: seq<string>, out: Values) {
    && (forall key :: key in out <==> key in dst || Collected(h, seen, key) != [])
    && (forall key :: key in out ==> out[key] == ValuesOf(dst, key) + Collected(h, seen, key))
  }

  /** One pass of the outer loop: skip content-length, otherwise add every value. */
  method CopyHeader(before: Values, h: Values, name: string) returns (after: Values)
    requires name in h
    ensures forall key :: key in after <==> key in before || Contribution(h, name, key) != []
    ensures forall key :: key in after ==> after[key] == ValuesOf(before, key) + Contribution(h, name, key)
  {
    after := before;
    if !IsContentLength(name) {
      after := AddValues(before, name, h[name]);
    }
    Contributes(h, name, before, after);
  }

  /** The outer loop's pass adds exactly the contribution of the visited header. */
  lemma Contributes(h: Values, name: string, before: Values, after: Values)
    requires name in h
    requires IsContentLength(name) ==> after == before
    requires !IsContentLength(name) ==>
      && (forall key :: key in after <==> key in before || (key == CanonicalKey(name) && h[name] != []))
      && (forall key :: key in after ==>
            after[key] == ValuesOf(before, key) + (if key == CanonicalKey(name) then h[name] else []))
    ensures forall key :: key in after <==> key in before || Contribution(h, name, key) != []
    ensures forall key :: key in after ==> after[key] == ValuesOf(before, key) + Contribution(h, name, key)
  {
    forall key
      ensures key in after <==> key in before || Contribution(h, name, key) != []
      ensures key in after ==> after[key] == ValuesOf(before, key) + Contribution(h, name, key)
    {
      if IsContentLength(name) {
        assert Contribution(h, name, key) == [];
      }
    }
  }

  /** Adding the contribution of one more header keeps the invariant. */
  lemma CopyStep(dst: Values, h: Values, seen: seq<string>, name: string, before: Values, after: Values)
    requires CopiedSoFar(dst, h, seen, before)
    requires forall key :: key in after <==> key in before || Contribution(h, name, key) != []
    requires forall key :: key in after ==>
      after[key] == ValuesOf(before, key) + Contribution(h, name, key)
    ensures CopiedSoFar(dst, h, seen + [name], after)
  {
    forall key
      ensures key in after <==> key in dst || Collected(h, seen + [name], key) != []
      ensures key in after ==> after[key] == ValuesOf(dst, key) + Collected(h, seen + [name], key)
    {
      CollectedSnoc(h, seen, name, key);
      CopyKey(dst, before, after, key, Collected(h, seen, key), Contribution(h, name, key));
    }
  }

  /**
   * `CopyStep` for one response header: it held `prior` on top of `dst`, and
   * the pass added `added` on top of that.
   */
  lemma CopyKey(dst: Values, before: Values, after: Values, key: string, prior: seq<string>,
                added: seq<string>)
    requires key in before <==> key in dst || prior != []
    requires key in before ==> before[key] == ValuesOf(dst, key) + prior
    requires key in after <==> key in before || added != []
    requires key in after ==> after[key] == ValuesOf(before, key) + added
    ensures key in after <==> key in dst || prior + added != []
    ensures key in after ==> after[key] == ValuesOf(dst, key) + (prior + added)
  {
  }

  /** Visiting one more name appends its contribution. */
  lemma CollectedSnoc(h: Values, seen: seq<string>, name: string, key: string)
    ensures Collected(h, seen + [name], key) == Collected(h, seen, key) + Contribution(h, name, key)
  {
    assert (seen + [name])[..|seen|] == seen;
  }

  /** The inner loop of `writeResponse`: `Add` every value of one header, in order. */
  method AddValues(dst: Values, name: string, values: seq<string>) returns (out: Values)
    ensures forall key :: key in out <==> key in dst || (key == CanonicalKey(name) && values != [])
    ensures forall key :: key in out ==>
      out[key] == ValuesOf(dst, key) + (if key == CanonicalKey(name) then values else [])
  {
    out := dst;
    var j := 0;
    ghost var key := CanonicalKey(name);
    while j < |values|
      invariant 0 <= j <= |values|
      invariant out == if j == 0 then dst else dst[key := ValuesOf(dst, key) + values[..j]]
    {
      ghost var prior := ValuesOf(dst, key);
      assert ValuesOf(out, key) == prior + values[..j];
      assert values[..j + 1] == values[..j] + [values[j]];
      assert prior + values[..j + 1] == (prior + values[..j]) + [values[j]];
      out := HeaderAdd(out, name, values[j]);
      assert out == dst[key := prior + values[..j + 1]];
      j := j + 1;
    }
    assert values[..j] == values;
  }

  /**
   * No two forwarded message headers share a canonical key: the case in which
   * the response does not depend on Go's map iteration order.
   */
  predicate CanonicallyDistinct(h: Values) {
    forall a, b :: a in h && b in h && a != b && !IsContentLength(a) && !IsContentLength(b) ==>
      CanonicalKey(a) != CanonicalKey(b)
  }

  /** Names in `order` that contribute nothing to `key` leave `Collected` empty. */
  lemma {:induction false} CollectedNone(h: Values, order: seq<string>, key: string)
    requires forall i :: 0 <= i < |order| ==> Contribution(h, order[i], key) == []
    ensures Collected(h, order, key) == []
    decreases |order|
  {
    if order != [] {
      CollectedNone(h, order[..|order| - 1], key);
    }
  }

  /**
   * When message headers are canonically distinct, a response header collects
   * exactly the values of the one message header that canonicalizes to it.
   */
  lemma {:induction false} CollectedSingle(h: Values, order: seq<string>, key: string, name: string)
    requires CanonicallyDistinct(h)
    requires forall i :: 0 <= i < |order| ==> order[i] in h
    requires forall i, j :: 0 <= i < j < |order| ==> order[i] != order[j]
    requires name in order && !IsContentLength(name) && CanonicalKey(name) == key
    ensures Collected(h, order, key) == h[name]
    decreases |order|
  {
    var prefix, last := order[..|order| - 1], order[|order| - 1];
    if last == name {
      forall i | 0 <= i < |prefix|
        ensures Contribution(h, prefix[i], key) == []
      {
        assert prefix[i] == order[i];
      }
      CollectedNone(h, prefix, key);
    } else {
      assert name in prefix by {
        var k :| 0 <= k < |order| && order[k] == name;
        assert k < |order| - 1;
        assert prefix[k] == name;
      }
      CollectedSingle(h, prefix, key, name);
    }
  }

  /**
   * Go visits map keys in an unspecified order. When no two forwarded
   * message headers share a canonical key, every visiting order yields the
   * same response headers.
   */
  lemma OrderIrrelevant(h: Values, order1: seq<string>, order2: seq<string>, key: string)
    requires Enumerates(order1, h) && Enumerates(order2, h)
    requires CanonicallyDistinct(h)
    ensures Collected(h, order1, key) == Collected(h, order2, key)
  {
    if name :| name in h && !IsContentLength(name) && CanonicalKey(name) == key {
      CollectedSingle(h, order1, key, name);
      CollectedSingle(h, order2, key, name);
    } else {
      CollectedNone(h, order1, key);
      CollectedNone(h, order2, key);
    }
  }

  /**
   * Header names that differ only in case merge into one response header,
   * and then the order of its values follows Go's map iteration order.
   */
  lemma CaseVariantsFollowVisitingOrder()
    ensures var h := map["x-id" := ["a"], "X-Id" := ["b"]];
      && Collected(h, ["x-id", "X-Id"], "X-Id") == ["a", "b"]
      && Collected(h, ["X-Id", "x-id"], "X-Id") == ["b", "a"]
  {
    var h := map["x-id" := ["a"], "X-Id" := ["b"]];
    assert CanonicalKey("x-id") == "X-Id";
    assert CanonicalKey("X-Id") == "X-Id";
    assert Lower("x-id") == "x-id";
    assert Lower("X-Id") == "x-id";
    assert ["x-id", "X-Id"][..1] == ["x-id"];
    assert ["X-Id", "x-id"][..1] == ["X-Id"];
  }

  /** The canonical keys of the three headers the streaming handler sets. */
  function StreamHeaderKeys(): set<string> {
    {CanonicalKey("Content-Type"), CanonicalKey("Cache-Control"), CanonicalKey("Connection")}
  }

  /**
   * The three headers the streaming handler sets before anything else; every
   * other header stays as it was.
   */
  function StreamHeaders(initial: Values): (r: Values)
    ensures HeaderGet(r, "Content-Type") == "text/event-stream"
    ensures HeaderGet(r, "Cache-Control") == "no-cache"
    ensures HeaderGet(r, "Connection") == "keep-alive"
    ensures forall n :: n in initial && n !in StreamHeaderKeys() ==> n in r && r[n] == initial[n]
    ensures r.Keys == initial.Keys + StreamHeaderKeys()
    ensures forall k :: k in StreamHeaderKeys() ==> |r[k]| == 1
  {
    // The three names differ in length, hence in canonical key.
    assert |CanonicalKey("Content-Type")| == 12;
    assert |CanonicalKey("Cache-Control")| == 13 && |CanonicalKey("Connection")| == 10;
    HeaderSet(HeaderSet(HeaderSet(initial, "Content-Type", "text/event-stream"),
                        "Cache-Control", "no-cache"),
              "Connection", "keep-alive")
  }

  /** An error reply leaves the caching and connection headers alone. */
  lemma ErrorKeepsStreamHeaders(h: Values)
    ensures HeaderGet(ErrorHeaders(h), "Cache-Control") == HeaderGet(h, "Cache-Control")
    ensures HeaderGet(ErrorHeaders(h), "Connection") == HeaderGet(h, "Connection")
  {
    assert |CanonicalKey("Content-Type")| == 12 && |CanonicalKey("Content-Length")| == 14;
    assert |CanonicalKey("X-Content-Type-Options")| == 22;
    assert |CanonicalKey("Cache-Control")| == 13 && |CanonicalKey("Connection")| == 10;
  }

  /** What the streaming handler sets up: its response headers, reply and started work. */
  datatype Session = Session(headers: Values, reply: Reply, effects: seq<Effect>)

  /**
   * `newSSEHandler`: sets the event-stream headers, authorizes the mapped
   * subject, and only then starts the keepalive loop and the stream function.
   * `canFlush` says whether the response writer supports flushing.
   */
  function HandleSse(req: Request, auth: AuthFunc, initial: Values, canFlush: bool): (s: Session)
    ensures s.reply == Untouched ==>
      && HeaderGet(s.headers, "Content-Type") == "text/event-stream"
      && HeaderGet(s.headers, "Cache-Control") == "no-cache"
      && HeaderGet(s.headers, "Connection") == "keep-alive"
    ensures s.reply != Untouched ==>
      && HeaderGet(s.headers, "Content-Type") == "text/plain; charset=utf-8"
      && HeaderGet(s.headers, "X-Content-Type-Options") == "nosniff"
      && HeaderGet(s.headers, "Cache-Control") == "no-cache"
      && HeaderGet(s.headers, "Connection") == "keep-alive"
    ensures |s.effects| >= 1
    ensures s.effects[0] == Authorize(Credential(req), ToSubject(req.pathSubject))
    ensures !auth(Credential(req), ToSubject(req.pathSubject)) ==>
      s.reply == StatusError(StatusUnauthorized) && |s.effects| == 1
    ensures auth(Credential(req), ToSubject(req.pathSubject)) && !canFlush ==>
      s.reply == StatusError(StatusInternalServerError) && |s.effects| == 1
    ensures RunStream(ToSubject(req.pathSubject)) in s.effects <==>
      auth(Credential(req), ToSubject(req.pathSubject)) && canFlush
    ensures StartPing in s.effects <==> auth(Credential(req), ToSubject(req.pathSubject)) && canFlush
    ensures var subject := ToSubject(req.pathSubject);
      auth(Credential(req), subject) && canFlush ==>
      s == Session(StreamHeaders(initial), Untouched,
                   [Authorize(Credential(req), subject), StartPing, RunStream(subject)])
    ensures s.reply != Untouched ==>
      && s.headers == ErrorHeaders(StreamHeaders(initial))
      && s.effects == [Authorize(Credential(req), ToSubject(req.pathSubject))]
  {
    var headers := StreamHeaders(initial);
    var subject := ToSubject(req.pathSubject);
    var asked := [Authorize(Credential(req), subject)];
    if !auth(Credential(req), subject) then
      ErrorKeepsStreamHeaders(headers);
      Session(ErrorHeaders(headers), StatusError(StatusUnauthorized), asked)
    else if !canFlush then
      ErrorKeepsStreamHeaders(headers);
      Session(ErrorHeaders(headers), StatusError(StatusInternalServerError), asked)
    else
      Session(headers, Untouched, [Authorize(Credential(req), subject), StartPing, RunStream(subject)])
  }
}

=== FILE: strconv.dfy ===
/**
 * Decimal integer parsing as Go's `strconv.Atoi` does it on a 64-bit platform,
 * and decimal formatting as its inverse.
 */
module Strconv {
  import opened Wrappers

  const MinInt64: int := -0x8000_0000_0000_0000
  const MaxInt64: int := 0x7FFF_FFFF_FFFF_FFFF

  predicate IsDigit(c: char) {
    '0' <= c <= '9'
  }

  predicate AllDigits(s: string) {
    forall i :: 0 <= i < |s| ==> IsDigit(s[i])
  }

  function DigitValue(c: char): (d: nat)
    requires IsDigit(c)
    ensures d < 10
  {
    c as int - '0' as int
  }

  function DigitChar(d: nat): (c: char)
    requires d < 10
    ensures IsDigit(c) && DigitValue(c) == d
  {
    ('0' as int + d) as char
  }

  /** The value of a string of decimal digits, most significant first. */
  function DecimalValue(s: string): nat
    requires AllDigits(s)
  {
    if s == [] then 0 else DecimalValue(s[..|s| - 1]) * 10 + DigitValue(s[|s| - 1])
  }

  /** The digits of a numeral: everything after an optional leading sign. */
  function Unsigned(s: string): (d: string)
    ensures |d| == |s| || (|d| == |s| - 1 && d == s[1..])
  {
    if |s| > 0 && (s[0] == '-' || s[0] == '+') then s[1..] else s
  }

  /** An optional `+` or `-` followed by at least one decimal digit. */
  predicate IsInteger(s: string) {
    Unsigned(s) != [] && AllDigits(Unsigned(s))
  }

  /** The value a numeral denotes, with no bound on its size. */
  function Value(s: string): int
    requires IsInteger(s)
  {
    if s[0] == '-' then 0 - DecimalValue(Unsigned(s)) else DecimalValue(Unsigned(s))
  }

  /**
   * `strconv.Atoi`: a numeral whose value lies in the 64-bit signed range.
   * Go's fast path for short inputs and its `ParseInt` slow path accept
   * exactly these strings.
   */
  function Atoi(s: string): (r: Option<int>)
    ensures r.Some? ==> MinInt64 <= r.value <= MaxInt64
    ensures r.Some? ==> |s| > 0 && IsDigit(s[|s| - 1])
    ensures r.Some? && !IsDigit(s[0]) ==> 2 <= |s| && (s[0] == '-' || s[0] == '+')
  {
    if IsInteger(s) && MinInt64 <= Value(s) <= MaxInt64 then Some(Value(s)) else None
  }

  /** Decimal digits of a natural number, without leading zeros. */
  function Digits(n: nat): (s: string)
    ensures |s| > 0 && AllDigits(s)
    ensures DecimalValue(s) == n
  {
    if n < 10 then [DigitChar(n)]
    else
      var s := Digits(n / 10) + [DigitChar(n % 10)];
      assert s[..|s| - 1] == Digits(n / 10);
      s
  }

  /** `strconv.Itoa`: the decimal rendering Atoi reads back. */
  function FormatInt(n: int): (s: string)
    ensures |s| > 0
    ensures n >= 0 <==> IsDigit(s[0])
  {
    if n < 0 then "-" + Digits(-n) else Digits(n)
  }

  /** Parsing the rendering of any 64-bit integer gives that integer back. */
  lemma AtoiFormatInt(n: int)
    requires MinInt64 <= n <= MaxInt64
    ensures Atoi(FormatInt(n)) == Some(n)
  {
  }

  /** No string with a sign and no digits, or with a non-digit after the sign, parses. */
  lemma AtoiRejectsNonDigits(s: string, i: nat)
    requires i < |s| && !IsDigit(s[i])
    requires i > 0 || (s[0] != '-' && s[0] != '+')
    ensures Atoi(s) == None
  {
  }

  /** Leading zeros removed, keeping at least one digit. */
  function StripZeros(t: string): (r: string)
    requires t != [] && AllDigits(t)
    ensures r != [] && AllDigits(r) && DecimalValue(r) == DecimalValue(t)
    ensures |r| == 1 || r[0] != '0'
  {
    if |t| > 1 && t[0] == '0' then
      LeadingZero(t[1..]);
      assert t == "0" + t[1..];
      StripZeros(t[1..])
    else t
  }

  /**
   * The form Go itself would print for a numeral: no `+`, no leading zeros,
   * and no sign on zero.
   */
  function Canonical(s: string): (c: string)
    requires IsInteger(s)
  {
    var magnitude := StripZeros(Unsigned(s));
    if s[0] == '-' && magnitude != "0" then "-" + magnitude else magnitude
  }

  /** A leading zero does not change the value of a digit string. */
  lemma {:induction false} LeadingZero(u: string)
    requires AllDigits(u)
    ensures AllDigits("0" + u) && DecimalValue("0" + u) == DecimalValue(u)
    decreases |u|
  {
    if u != [] {
      var p := u[..|u| - 1];
      LeadingZero(p);
      assert ("0" + u)[..|u|] == "0" + p;
    }
  }

  /** A digit string that starts with a non-zero digit has a positive value. */
  lemma {:induction false} LeadingNonZero(t: string)
    requires t != [] && AllDigits(t) && t[0] != '0'
    ensures DecimalValue(t) >= 1
    decreases |t|
  {
    if |t| > 1 {
      LeadingNonZero(t[..|t| - 1]);
    }
  }

  /** A digit string without leading zeros is the rendering of its own value. */
  lemma {:induction false} DigitsOfValue(t: string)
    requires t != [] && AllDigits(t) && (|t| == 1 || t[0] != '0')
    ensures Digits(DecimalValue(t)) == t
    decreases |t|
  {
    var p, c := t[..|t| - 1], t[|t| - 1];
    if |t| == 1 {
      assert DigitChar(DigitValue(c)) == c;
      assert t == [c];
    } else {
      LeadingNonZero(p);
      DigitsOfValue(p);
      var n := DecimalValue(t);
      assert n == DecimalValue(p) * 10 + DigitValue(c);
      assert n / 10 == DecimalValue(p) && n % 10 == DigitValue(c);
      assert DigitChar(DigitValue(c)) == c;
      assert t == p + [c];
    }
  }

  /** The canonical form of a numeral is the rendering of its value. */
  lemma CanonicalIsFormat(s: string)
    requires IsInteger(s)
    ensures Canonical(s) == FormatInt(Value(s))
  {
    var digits := Unsigned(s);
    var magnitude := StripZeros(digits);
    DigitsOfValue(magnitude);
    var v := DecimalValue(digits);
    assert Digits(v) == magnitude;
    if v == 0 {
      assert magnitude == "0" by {
        if magnitude[0] != '0' {
          LeadingNonZero(magnitude);
        }
      }
      assert Value(s) == 0;
    } else {
      assert magnitude != "0" by {
        assert DecimalValue("0") == 0;
      }
      if s[0] == '-' {
        var n: int := -(v as int);
        assert Value(s) == n && FormatInt(n) == "-" + Digits(v);
      } else {
        assert Value(s) == v;
      }
    }
  }

  /** Distinct integers have distinct renderings. */
  lemma FormatIntInjective(a: int, b: int)
    requires FormatInt(a) == FormatInt(b)
    ensures a == b
  {
    if a < 0 && b < 0 {
      assert Digits(-a) == FormatInt(a)[1..] == Digits(-b);
    }
  }

  /**
   * Atoi accepts exactly the numerals whose value is a 64-bit integer, and
   * the value it returns is the one whose rendering is the numeral's
   * canonical form. So "007", "+7" and "-0" parse, to 7, 7 and 0.
   */
  lemma AtoiCanonical(s: string, n: int)
    ensures Atoi(s) == Some(n) <==>
      IsInteger(s) && MinInt64 <= n <= MaxInt64 && Canonical(s) == FormatInt(n)
  {
    if IsInteger(s) {
      CanonicalIsFormat(s);
      if Canonical(s) == FormatInt(n) {
        FormatIntInjective(Value(s), n);
      }
    }
  }

  /** A zero-padded or signed 200 parses to 200. */
  lemma AtoiPaddedOk()
    ensures Atoi("0200") == Some(200) && Atoi("+200") == Some(200)
  {
    assert Unsigned("+200") == "200";
    assert IsInteger("0200") && IsInteger("+200");
    assert DecimalValue("0200") == DecimalValue("200") == 200 by {
      assert "0200"[..3] == "020" && "020"[..2] == "02" && "02"[..1] == "0";
      assert "200"[..2] == "20" && "20"[..1] == "2";
    }
    assert Value("0200") == 200 && Value("+200") == 200;

  }
}

=== FILE: subjects.dfy ===
/** `replacer` (nats.go): turns a URL path value into a backbone subject. */
module Subjects {

  /** The subject for a path: every `/` becomes `.`, every other character stays where it was. */
  function ToSubject(path: string): (subject: string)
    ensures |subject| == |path|
    ensures forall i :: 0 <= i < |path| ==>
      subject[i] == (if path[i] == '/' then '.' else path[i])
    ensures '/' !in subject
  {
    if path == [] then []
    else [if path[0] == '/' then '.' else path[0]] + ToSubject(path[1..])
  }

  /** Mapping an already-mapped subject changes nothing. */
  lemma ToSubjectIdempotent(path: string)
    ensures ToSubject(ToSubject(path)) == ToSubject(path)
  {
  }

  /** A path is left as it is exactly when it holds no `/`. */
  lemma ToSubjectFixedPoints(path: string)
    ensures ToSubject(path) == path <==> '/' !in path
  {
  }

  /** Mapping respects the hierarchy: each `/`-separated segment maps on its own. */
  lemma ToSubjectSegments(a: string, b: string)
    ensures ToSubject(a + "/" + b) == ToSubject(a) + "." + ToSubject(b)
  {
  }
}

=== FILE: text.dfy ===
/** Bytes and the string-to-bytes conversion Go performs with `[]byte(s)`. */
module Text {

  newtype byte = b: int | 0 <= b < 256

  type Bytes = seq<byte>

  predicate IsAscii(c: char) {
    c as int < 0x80
  }

  predicate AllAscii(s: string) {
    forall i :: 0 <= i < |s| ==> IsAscii(s[i])
  }

  /** The UTF-8 encoding of one Unicode scalar value. */
  function EncodeRune(c: char): (r: Bytes)
    ensures 1 <= |r| <= 4
    ensures |r| == 1 <==> IsAscii(c)
    ensures IsAscii(c) ==> r[0] as int == c as int
    ensures !IsAscii(c) ==> forall i :: 0 <= i < |r| ==> r[i] >= 0x80
  {
    var n := c as int;
    if n < 0x80 then [n as byte]
    else if n < 0x800 then [(0xC0 + n / 0x40) as byte, (0x80 + n % 0x40) as byte]
    else if n < 0x1_0000 then
      [(0xE0 + n / 0x1000) as byte, (0x80 + (n / 0x40) % 0x40) as byte, (0x80 + n % 0x40) as byte]
    else
      [(0xF0 + n / 0x4_0000) as byte, (0x80 + (n / 0x1000) % 0x40) as byte,
       (0x80 + (n / 0x40) % 0x40) as byte, (0x80 + n % 0x40) as byte]
  }

  /** `[]byte(s)`: the UTF-8 encoding of a string. An ASCII string keeps one byte per character. */
  function Utf8(s: string): (r: Bytes)
    ensures |s| <= |r| <= 4 * |s|
    ensures AllAscii(s) ==> |r| == |s| && forall i :: 0 <= i < |s| ==> r[i] as int == s[i] as int
  {
    if s == [] then [] else Utf8(s[..|s| - 1]) + EncodeRune(s[|s| - 1])
  }
}

=== FILE: wrappers.dfy ===
/** Optional values and outcomes with an error, shared by the whole model. */
module Wrappers {

  /** A value that may be absent: Go's "nil or something". */
  datatype Option<+T> = None | Some(value: T)

  /** A value or the error that prevented computing it: Go's `(T, error)` pair. */
  datatype Result<+T, +E> = Success(value: T) | Failure(error: E)
}
